=== FILE: README.md ===
# Kosli / Merkely CLI reporting core in Dafny

This project models the decision-making parts of the Kosli (formerly Merkely) command
line client. That client reports software-delivery evidence to a Kosli server. The model
covers five pieces:

- **Commit-range resolution** (`listCommitsBetween`, module `CommitRange`). An approval
  covers the commits from a newest revision back to, but not including, an oldest one.
  Both revisions are resolved newest first. The log is walked in committer-time order
  until the oldest commit is met. Every failure gives an error and an empty list.
- **Approval reports** (`approvalReportOptions.run` of the merkely and kosli commands,
  modules `Approvals`, `MerkelyApprovalReport` and `KosliApprovalReport`). The run
  fingerprints the artifact only when no fingerprint was supplied. It picks the review
  list by the `request` flag, loads the user data and lists the commits. It then POSTs
  the payload, or returns at the first error without sending anything.
- **GitHub pull-request evidence** (module `GithubPrEvidence`). It takes the repository
  name from `owner/name` and builds one evidence entry per pull request containing the
  commit. Each entry's approvers are the comma-joined logins of the APPROVED reviews. The
  artifact is compliant when some pull request was found; under `--assert`, finding none
  is an error. The contents are sent by PUT.
- **The flag-usage table** (`CommandsInTable` and `defaultIsZeroValue`, module
  `FlagTable`). It prints one line per visible flag, with every usage text starting at
  the same column.
- **The `fingerprint` command** (module `FingerprintCommand`). Its argument check runs
  before the run, and the run writes the fingerprint and nothing else.

External collaborators are function-valued parameters ("oracles"):

- opening a repository, resolving revisions and the committer-time log walk;
- artifact fingerprinting and user-data loading;
- the GitHub pull-request and review listings;
- the rich commit lister of the kosli command;
- the flag library's `UnquoteUsage` and `wrap`.

A run never performs its send. It returns `Outcome.Sent(request)` holding the exact
request (method, URL, payload and settings) it would hand to the sender, or
`Outcome.Aborted(error)`. Strings are `seq<char>`, and one char stands for one byte.

Shared modules:

- `Wrappers` holds `Option` and `Result`.
- `Strs` holds Go's `strings.Index`, `Split`, `Join`, `TrimSuffix` and `Repeat`, with
  round-trip lemmas.
- `Reporting` holds the settings, the request and the fingerprint choice.

A walk that ends before reaching the oldest commit fails with the iterator's own error
("failed to get next commit"), here `NextCommitFailed`. The newest revision is resolved
first, and its failure is the one reported.

## Model

| member | source | states |
|---|---|---|
| CommitRange.ListCommitsBetween | cmd/merkely/approvalReport.go:143-182 | The loop that only ends by `break` or an error return computes exactly the whole-sequence listing `RangeBetween`: open, resolve newest then oldest, start the log, and keep the hashes before the first oldest one. |
| CommitRange.OpenFailureComesFirst | cmd/merkely/approvalReport.go:144-148 | When the repository cannot be opened, the result is an empty list and an error naming the directory. Nothing is resolved. |
| CommitRange.ResolutionOrder | cmd/merkely/approvalReport.go:150-158 | The newest revision is resolved first. Its failure is reported whatever the oldest resolves to. A failure of the oldest alone is reported as the oldest's. Either way the list is empty and no walk starts. |
| CommitRange.FailureIsEmpty | cmd/merkely/approvalReport.go:144-173 | Every error result carries the empty list, never a partial one. |
| CommitRange.RangeIsWalkBeforeOldest | cmd/merkely/approvalReport.go:164-179 | Success holds iff the walk meets the oldest hash. Then the result is the walk's hashes strictly before that first meeting, in walk order, the next walk entry is the oldest, and the oldest is not in the result. Otherwise the result is the empty list with the next-commit error. |
| CommitRange.RangeFollowsCommitterTime | cmd/merkely/approvalReport.go:164-175 | Assume the log yields each commit once with committer times never increasing (an assumption about the log, not something the code checks). Then, on success, the result is the hashes of the first walk entries in walk order, so its commits carry non-increasing committer times; it has no duplicates; and it starts with the newest commit unless both revisions resolve to the same hash. |
| CommitRange.SameRevisionIsEmptyRange | cmd/merkely/approvalReport.go:169-178 | Two revisions resolving to the same commit give the empty list and no error, for any log that starts at that commit, whatever its committer times. |
| Reporting.Fingerprint | cmd/merkely/approvalReport.go:107-112 | A supplied fingerprint is kept unchanged. Only when none is supplied is the digest of the first argument taken. |
| Approvals.Reviews | cmd/merkely/approvalReport.go:115-126 | Empty exactly for an approval request. Otherwise it is one entry with exactly the keys state, comment, approved_by and approval_url, valued APPROVED, the description, External and undefined. |
| MerkelyApprovalReport.Run | cmd/merkely/approvalReport.go:105-140 | Sends iff fingerprinting, user-data loading and the commit listing all succeed. The earliest failing step decides the error. The request sent is a POST to `<host>/api/v1/projects/<owner>/<pipeline>/approvals/`. Its payload holds the supplied or computed fingerprint, the description, the listed commits, the reviews `request` selects and the user data. |
| KosliApprovalReport.AppendSha1s | cmd/kosli/approvalReport.go:133-135 | The commit list becomes the previous list followed by each listed commit's SHA-1, same count and same order. |
| KosliApprovalReport.Run | cmd/kosli/approvalReport.go:101-140 | Sends iff fingerprinting, user-data loading and the rich commit listing succeed. The earliest failure decides the error, and the commit list is not extended before it. A sent request is a POST to the approvals URL carrying the fingerprint, description, reviews and user data, and the previous commit list extended by the SHA-1s in order. |
| GithubPrEvidence.GetPullRequestApprovers | cmd/kosli/artifactEvidencePRGithub.go:176-189 | A failed review listing gives "" and its error. Otherwise the result is the APPROVED logins joined by ",", in review order. That is "" when none approved, and no trailing comma from the loop remains. |
| GithubPrEvidence.ApprovedLoginsAppend | cmd/kosli/artifactEvidencePRGithub.go:182-186 | The approved logins of concatenated review lists are those of each list in turn. |
| GithubPrEvidence.OtherStatesIgnored | cmd/kosli/artifactEvidencePRGithub.go:183-185 | A review in any state other than APPROVED contributes nothing, wherever it stands in the list. |
| GithubPrEvidence.ApproversSplitBack | cmd/kosli/artifactEvidencePRGithub.go:184-187 | When at least one review is APPROVED and no approved login holds a comma, splitting the approvers string at commas gives back exactly the approved logins. |
| GithubPrEvidence.RepositoryName | cmd/kosli/artifactEvidencePRGithub.go:115-117 | The last element always exists. The name holds no "/", ends the repository string, and is either the whole string or preceded by a "/". |
| GithubPrEvidence.PlainRepositoryName | cmd/kosli/artifactEvidencePRGithub.go:116-117 | A repository string without "/" is its own name. |
| GithubPrEvidence.GetGithubPullRequests | cmd/kosli/artifactEvidencePRGithub.go:113-174 | A listing failure gives no entries and its error. Otherwise there is one entry per pull request, in list order, carrying its URL, merge commit, state and approvers. A failed approver lookup stops at that pull request, keeps the entries built so far and returns its error. Compliant iff there is no error and at least one entry. With no pull requests, `assert` gives the "no pull requests found" error and no `assert` gives no error. |
| GithubPrEvidence.Run | cmd/kosli/artifactEvidencePRGithub.go:87-111 | Sends iff the fingerprint, the listing and every approver lookup succeed and, under `assert`, some pull request exists. The send is a PUT to `<host>/api/v1/projects/<owner>/<pipeline>/artifacts/<sha256>`. The contents hold exactly is_compliant (true iff the evidence list is non-empty), the build URL, the description and the evidence list. |
| FlagTable.DefaultIsZeroValue | cmd/merkely/printCommandsInTable.go:100-128 | For each known value class, the default counts as zero iff it is that class's zero literal: "false"; "0" or "0s"; "0"; ""; "<nil>"; "[]". For any other value the current text, not the default, is checked against "false", "<nil>", "" and "0". |
| FlagTable.PrefixWidth | cmd/merkely/printCommandsInTable.go:39-43 | With a one-letter shorthand or none, both prefix forms put the name 8 bytes in, followed by nothing else. |
| FlagTable.OptionalValueNote | cmd/merkely/printCommandsInTable.go:49-64 | The note is absent iff there is no optional value, or a bool flag's is "true", or a count flag's is "+1". Otherwise it is `[="v"]` for a string flag and `[=v]` for any other. |
| FlagTable.DefaultNote | cmd/merkely/printCommandsInTable.go:74-80 | Present iff the default is not the zero value. It is quoted for a string flag. |
| FlagTable.DeprecationNote | cmd/merkely/printCommandsInTable.go:81-83 | Present iff the deprecation text is non-empty, as ` (DEPRECATED: text)`. |
| FlagTable.LineOf | cmd/merkely/printCommandsInTable.go:38-83 | Every flag's line has its head (prefix, value name, optional-value note) ending in the NUL marker. |
| FlagTable.MarkerInHead | cmd/merkely/printCommandsInTable.go:66-68 | The first marker of a line lies within its head. |
| FlagTable.VisibleSnoc | cmd/merkely/printCommandsInTable.go:33-36 | Visiting one more flag appends it to the visible flags unless it is hidden. |
| FlagTable.VisibleDropsHidden | cmd/merkely/printCommandsInTable.go:33-36 | No visible flag is hidden, and every visible flag is one of the visited ones. |
| FlagTable.VisibleKeepsShown | cmd/merkely/printCommandsInTable.go:33-36 | With no hidden flag, every flag is visible, in visiting order. |
| FlagTable.LinesSnoc | cmd/merkely/printCommandsInTable.go:33-85 | Visiting one more flag appends its line unless it is hidden. |
| FlagTable.LinesOfVisible | cmd/merkely/printCommandsInTable.go:33-85 | The i-th line is the line of the i-th visible flag, so there is one line per visible flag, in visiting order. |
| FlagTable.MaxHeadLenSnoc | cmd/merkely/printCommandsInTable.go:69-71 | One more line raises the running maximum to that line's head length if it is longer. |
| FlagTable.MaxOfBound | cmd/merkely/printCommandsInTable.go:69-71 | No length in the list exceeds the running maximum. |
| FlagTable.MaxOfAttained | cmd/merkely/printCommandsInTable.go:69-71 | The maximum of a non-empty list is one of its elements. |
| FlagTable.MaxHeadLenBound | cmd/merkely/printCommandsInTable.go:69-71 | No line's head, marker included, is longer than `maxlen`. |
| FlagTable.MaxHeadLenAttained | cmd/merkely/printCommandsInTable.go:69-71 | When there is at least one line, `maxlen` is exactly the length of some line's head. |
| FlagTable.LongestHeadPadsOnce | cmd/merkely/printCommandsInTable.go:68-90 | A line whose head has length `maxlen` and holds no NUL before its final marker gets `maxlen - sidx == 1`, a padding of one space. |
| FlagTable.LinesStep | cmd/merkely/printCommandsInTable.go:33-85 | Visiting the next flag adds its line after the earlier ones, unless it is hidden. |
| FlagTable.PaddingIsPositive | cmd/merkely/printCommandsInTable.go:68-71 | Each line's marker index plus one is at most `maxlen`, so the padding `maxlen - sidx` is at least one and never negative. |
| FlagTable.EmitLine | cmd/merkely/printCommandsInTable.go:89-92 | An output line keeps the text before the marker and fills the columns from the marker up to `maxlen + 2` with spaces. From `maxlen + 2` it holds the wrapped text after the marker, then a newline. |
| FlagTable.CollectLines | cmd/merkely/printCommandsInTable.go:30-86 | The visiting pass keeps exactly the lines of the visible flags, in order, and `maxlen` is the longest head among them. |
| FlagTable.WriteLines | cmd/merkely/printCommandsInTable.go:88-93 | The writing pass leaves in the buffer the aligned lines, in order. |
| FlagTable.CommandsInTable | cmd/merkely/printCommandsInTable.go:27-96 | The returned text is the concatenation of the aligned lines of the visible flags. |
| FlagTable.UsageColumn | cmd/merkely/printCommandsInTable.go:88-93 | In every line, columns `maxlen` and `maxlen + 1` are spaces and the wrapped usage starts at column `maxlen + 2`. When the head has no earlier NUL, the line starts with the head without its marker, and the wrapped text is the flag's usage with its notes. |
| FlagTable.MarkerBecomesSpace | cmd/merkely/printCommandsInTable.go:88-92 | When the head has no NUL before its final marker, the emitted line has a space where that marker stood. |
| FingerprintCommand.ValidateArgs | cmd/merkely/fingerprint.go:25-33 | Accepts iff there is exactly one non-empty argument. Two or more arguments, even empty ones, are always "too many", because the count is checked first. No argument, or one empty argument, is "required". |
| FingerprintCommand.Run | cmd/merkely/fingerprint.go:47-54 | On success exactly the fingerprint is written, with no newline. On a fingerprinting error nothing is written and the error is returned. |
| FingerprintCommand.ExecuteWritesOnlyTheFingerprint | cmd/merkely/fingerprint.go:25-54 | The command writes only for one non-empty argument that fingerprints successfully, and then writes exactly the fingerprint. Every rejected command line writes nothing and returns the argument validation's message. |
| Strs.IndexOf | cmd/merkely/printCommandsInTable.go:89 | `strings.Index`: -1 iff the character is absent. Otherwise it is a position holding it with none before. |
| Strs.SplitLast | cmd/kosli/artifactEvidencePRGithub.go:116-117 | The last piece of `strings.Split` is the suffix after the final separator, or the whole string when it has none. |
| Strs.JoinSplit | cmd/kosli/artifactEvidencePRGithub.go:116 | Joining the pieces of a split with the separator restores the string. |
| Strs.SplitJoin | cmd/kosli/artifactEvidencePRGithub.go:116 | Splitting a join of separator-free pieces restores the pieces. |
| Strs.JoinSnoc | cmd/kosli/artifactEvidencePRGithub.go:184 | Joining one more part appends the separator and that part. |
| Strs.TrimSuffix | cmd/kosli/artifactEvidencePRGithub.go:187 | When the string ends with the suffix, exactly one copy is removed. Otherwise the string is unchanged. |

## Left out

- HTTP delivery (`requests.SendPayload`) is not part of this model. That includes retries, dry run and authentication, and the status the send returns. A run ends with the request it would send.
- Repository access through go-git (`PlainOpen`, `ResolveRevision`, `Log`, iterator `Next`) is an oracle. The end of history and a failure part-way through both appear as the end of the finite walk, since the code treats them alike.
- The kosli command's `listCommitsBetween`, which returns rich commits, is not part of this model. Its result is an input sequence.
- The GitHub client is an oracle returning whatever list it returns. That covers the oauth2 setup, `ListPullRequestsWithCommit`, `ListReviews`, paging and the GitHub token.
- The debugging `GetCommit` call and its `Printf` output inside the pull-request loop are omitted because they are output side effects only. So is the "No pull requests found" info log.
- `GetSha256Digest` and `LoadUserData` (file, directory and image digests; reading user data) are oracles. The user data is kept as an opaque string.
- The cobra wiring is not modelled: flag definitions, `RequireFlags`, `RequireGlobalFlags`, `ValidateArtifactArg`, registry flags and logging. The runs' precondition that a fingerprint or an artifact argument is present stands for the validation that guarantees `args[0]` exists.
- `UnquoteUsage` and `wrap` belong to the flag library and are parameters. `CommandsInTable` uses a `cols` variable and calls `defaultIsZeroValue` as a method, and neither is defined in that file. The model reads the call as the function shown and folds `cols` into `wrap`.
- The value classes of `defaultIsZeroValue` are a datatype. The pflag value types behind them are not part of this model.
- FlagTable.DefaultNote: quotes a string default with plain double quotes. Go's `%q` escaping of special characters inside it is not modelled.
- CommitRange.ListCommitsBetween: errors are constructors naming the directory or revision at fault, not Go's formatted messages with the wrapped library error.
- FlagTable.UsageColumn: the conclusion about the flag's usage text assumes the head contains no NUL before its marker. A flag name or value name holding a NUL would move the column split, as in the code.
- Strs: a char stands for one byte. UTF-8 encoding is not modelled, so lengths are byte counts only for ASCII text.
- reportEvidenceCommitJira, snapshotAzureApps, environmentGet, environmentLog and the test helpers are not part of this model. They are orchestration over unseen collaborators, SDK calls, HTTP and time formatting.

=== FILE: approvals.dfy ===
/** The approval payload and the review list shared by both `approval report`
    commands (cmd/merkely/approvalReport.go and cmd/kosli/approvalReport.go). */
module Approvals {
  import opened Reporting

  /** One review entry of the payload: a string-to-string map, as sent. */
  type ReviewEntry = map<string, string>

  /** The body of an approval report. `userData` is the loaded user-data document,
      kept opaque. */
  datatype ApprovalPayload = ApprovalPayload(
    artifactSha256: string,
    description: string,
    commitList: seq<string>,
    reviews: seq<ReviewEntry>,
    userData: string)

  /** Why a `run` returned before sending; `C` is the commit lister's error. */
  datatype ApprovalError<C> =
    | FingerprintFailed(detail: string)
    | UserDataFailed(detail: string)
    | CommitsFailed(cause: C)

  /** The fields of the review entry a direct approval report carries. */
  const ReviewKeys: set<string> := {"state", "comment", "approved_by", "approval_url"}

  /** The review list: a reported approval carries exactly one review, APPROVED by
      "External", whose comment is the description and whose URL is "undefined"; an
      approval request carries none. */
  function Reviews(request: bool, description: string): (r: seq<ReviewEntry>)
    ensures request <==> |r| == 0
    ensures |r| <= 1
    ensures forall e :: e in r ==>
      && e.Keys == ReviewKeys
      && e["state"] == "APPROVED"
      && e["comment"] == description
      && e["approved_by"] == "External"
      && e["approval_url"] == "undefined"
  {
    if !request then
      [map["state" := "APPROVED", "comment" := description,
           "approved_by" := "External", "approval_url" := "undefined"]]
    else
      []
  }

  /** Where approvals are posted: `<host>/api/v1/projects/<owner>/<pipeline>/approvals/`. */
  function ApprovalsUrl(config: Config, pipelineName: string): string
  {
    config.host + "/api/v1/projects/" + config.owner + "/" + pipelineName + "/approvals/"
  }
}

=== FILE: commit_range.dfy ===
/** Commit-range resolution (`listCommitsBetween`, cmd/merkely/approvalReport.go):
    the commits an approval covers, from the newest revision back to, but not
    including, the oldest one.

    The repository is abstract. Opening it, resolving a revision and starting a
    committer-time ordered log walk are oracles; the walk is the finite sequence of
    commits the log iterator yields before its `Next` reports an error (the end of
    history, or any failure met on the way). */
module CommitRange {
  import opened Wrappers

  /** A commit identifier, as the hexadecimal text the hash prints as. Distinct hashes
      print differently, so comparing these strings is comparing hashes. */
  type Hash = string

  datatype Commit = Commit(hash: Hash, committerTime: int)

  /** An opened repository: revision resolution, and the log walk from a starting commit
      (`None` when the log cannot be started). */
  datatype Repository = Repository(
    resolve: string -> Option<Hash>,
    log: Hash -> Option<seq<Commit>>)

  /** Why a listing failed, naming the directory or revision at fault. */
  datatype RangeError =
    | OpenFailed(repoRoot: string)
    | ResolveFailed(revision: string)
    | LogFailed
    | NextCommitFailed

  /** What the listing returns: the commits, and an error when it failed. */
  datatype Listing = Listing(commits: seq<Hash>, err: Option<RangeError>)

  /** What the lemmas below assume of a committer-time log from `start`: `start` first,
      each commit once, committer times never increasing. The code does not check this,
      and skewed clocks can break the time order; it is an assumption about the log. */
  ghost predicate WalkFrom(walk: seq<Commit>, start: Hash)
  {
    && |walk| > 0
    && walk[0].hash == start
    && (forall i, j :: 0 <= i < j < |walk| ==> walk[i].committerTime >= walk[j].committerTime)
    && (forall i, j :: 0 <= i < j < |walk| ==> walk[i].hash != walk[j].hash)
  }

  function Hashes(walk: seq<Commit>): (r: seq<Hash>)
    ensures |r| == |walk|
    ensures forall i :: 0 <= i < |walk| ==> r[i] == walk[i].hash
  {
    seq(|walk|, i requires 0 <= i < |walk| => walk[i].hash)
  }

  /** The position of the first `h` in `hs`, if any. */
  function FirstIndex(hs: seq<Hash>, h: Hash): (r: Option<nat>)
    ensures r.None? ==> forall i :: 0 <= i < |hs| ==> hs[i] != h
    ensures r.Some? ==> r.value < |hs| && hs[r.value] == h
    ensures r.Some? ==> forall i :: 0 <= i < r.value ==> hs[i] != h
  {
    if |hs| == 0 then None
    else if hs[0] == h then Some(0)
    else match FirstIndex(hs[1..], h)
      case None => None
      case Some(k) => Some(k + 1)
  }

  /** The listing as a whole-sequence definition: open, resolve the newest revision,
      then the oldest, start the walk at the newest, and keep what comes before the
      first visit of the oldest. Every failure yields an empty list. */
  function RangeBetween(open: string -> Option<Repository>, repoRoot: string, oldest: string, newest: string)
    : Listing
  {
    match open(repoRoot)
    case None => Listing([], Some(OpenFailed(repoRoot)))
    case Some(repo) =>
      match repo.resolve(newest)
      case None => Listing([], Some(ResolveFailed(newest)))
      case Some(newestHash) =>
        match repo.resolve(oldest)
        case None => Listing([], Some(ResolveFailed(oldest)))
        case Some(oldestHash) =>
          match repo.log(newestHash)
          case None => Listing([], Some(LogFailed))
          case Some(walk) =>
            match FirstIndex(Hashes(walk), oldestHash)
            case None => Listing([], Some(NextCommitFailed))
            case Some(k) => Listing(Hashes(walk)[..k], None)
  }

  /** `listCommitsBetween`, step by step: the walk loop of the source, which only ever
      leaves by meeting the oldest commit or by the iterator failing. It computes the
      whole-sequence definition. */
  method ListCommitsBetween(open: string -> Option<Repository>, repoRoot: string, oldest: string, newest: string)
    returns (commits: seq<Hash>, err: Option<RangeError>)
    ensures Listing(commits, err) == RangeBetween(open, repoRoot, oldest, newest)
  {
    var found := open(repoRoot);
    if found.None? {
      return [], Some(OpenFailed(repoRoot));
    }
    var repo := found.value;
    var newestHash := repo.resolve(newest);
    if newestHash.None? {
      return [], Some(ResolveFailed(newest));
    }
    var oldestHash := repo.resolve(oldest);
    if oldestHash.None? {
      return [], Some(ResolveFailed(oldest));
    }
    commits := [];
    var iter := repo.log(newestHash.value);
    if iter.None? {
      return [], Some(LogFailed);
    }
    var walk := iter.value;
    var next := 0;
    while true
      invariant 0 <= next <= |walk|
      invariant commits == Hashes(walk)[..next]
      invariant forall i :: 0 <= i < next ==> walk[i].hash != oldestHash.value
      decreases |walk| - next
    {
      if next == |walk| {
        return [], Some(NextCommitFailed);
      }
      var commit := walk[next];
      next := next + 1;
      if commit.hash != oldestHash.value {
        commits := commits + [commit.hash];
      } else {
        break;
      }
    }
    err := None;
  }

  /** Opening comes first: when it fails, nothing is resolved or walked and the error
      names the directory. */
  lemma OpenFailureComesFirst(open: string -> Option<Repository>, repoRoot: string, oldest: string, newest: string)
    requires open(repoRoot).None?
    ensures RangeBetween(open, repoRoot, oldest, newest) == Listing([], Some(OpenFailed(repoRoot)))
  {
  }

  /** The newest revision is resolved before the oldest: when it does not resolve the
      error names it, whatever the oldest would resolve to; when only the oldest fails
      the error names the oldest. Either way no walk is started. */
  lemma ResolutionOrder(repo: Repository, repoRoot: string, oldest: string, newest: string)
    ensures var r := RangeBetween(_ => Some(repo), repoRoot, oldest, newest);
      && (repo.resolve(newest).None? ==> r == Listing([], Some(ResolveFailed(newest))))
      && (repo.resolve(newest).Some? && repo.resolve(oldest).None?
          ==> r == Listing([], Some(ResolveFailed(oldest))))
  {
  }

  /** A failed listing never returns a partial list. */
  lemma FailureIsEmpty(open: string -> Option<Repository>, repoRoot: string, oldest: string, newest: string)
    ensures RangeBetween(open, repoRoot, oldest, newest).err.Some?
        ==> RangeBetween(open, repoRoot, oldest, newest).commits == []
  {
  }

  /** With both revisions resolved and the walk started: the listing succeeds exactly
      when the walk meets the oldest commit, and then it is the run of the walk strictly
      before that first meeting, in walk order; the oldest commit is never in it. When
      the walk ends without meeting it, the listing fails with an empty list. */
  lemma {:induction false} RangeIsWalkBeforeOldest(repo: Repository, repoRoot: string, oldest: string, newest: string,
                                                  walk: seq<Commit>)
    requires repo.resolve(newest).Some? && repo.resolve(oldest).Some?
    requires repo.log(repo.resolve(newest).value) == Some(walk)
    ensures var r := RangeBetween(_ => Some(repo), repoRoot, oldest, newest);
      var oldestHash := repo.resolve(oldest).value;
      && (r.err.None? <==> exists i :: 0 <= i < |walk| && walk[i].hash == oldestHash)
      && (r.err.None? ==>
            && |r.commits| < |walk|
            && r.commits == Hashes(walk[..|r.commits|])
            && walk[|r.commits|].hash == oldestHash
            && (forall i :: 0 <= i < |r.commits| ==> r.commits[i] != oldestHash))
      && (r.err.Some? ==> r == Listing([], Some(NextCommitFailed)))
  {
    var oldestHash := repo.resolve(oldest).value;
    var r := RangeBetween(_ => Some(repo), repoRoot, oldest, newest);
    match FirstIndex(Hashes(walk), oldestHash)
    case None =>
    case Some(k) =>
      assert Hashes(walk)[..k] == Hashes(walk[..k]);
  }

  /** Over a committer-time walk from the newest commit: the range is the hashes of the
      first walk entries, in walk order, so its commits are in committer-time order; it
      holds no commit twice, and starts with the newest commit unless the two revisions
      name the same commit. */
  lemma {:induction false} RangeFollowsCommitterTime(repo: Repository, repoRoot: string, oldest: string, newest: string,
                                                    walk: seq<Commit>)
    requires repo.resolve(newest).Some? && repo.resolve(oldest).Some?
    requires repo.log(repo.resolve(newest).value) == Some(walk)
    requires WalkFrom(walk, repo.resolve(newest).value)
    ensures var r := RangeBetween(_ => Some(repo), repoRoot, oldest, newest);
      r.err.None? ==>
        && |r.commits| < |walk|
        && r.commits == Hashes(walk[..|r.commits|])
        && (forall i, j :: 0 <= i < j < |r.commits| ==>
              walk[i].committerTime >= walk[j].committerTime && r.commits[i] != r.commits[j])
        && (repo.resolve(oldest) != repo.resolve(newest) ==>
              |r.commits| > 0 && r.commits[0] == repo.resolve(newest).value)
  {
    RangeIsWalkBeforeOldest(repo, repoRoot, oldest, newest, walk);
  }

  /** Two revisions naming the same commit give the empty range, and no error. */
  lemma SameRevisionIsEmptyRange(repo: Repository, repoRoot: string, oldest: string, newest: string,
                                 walk: seq<Commit>)
    requires repo.resolve(newest).Some? && repo.resolve(oldest) == repo.resolve(newest)
    requires repo.log(repo.resolve(newest).value) == Some(walk)
    requires |walk| > 0 && walk[0].hash == repo.resolve(newest).value
    ensures RangeBetween(_ => Some(repo), repoRoot, oldest, newest) == Listing([], None)
  {
  }
}

=== FILE: fingerprint.dfy ===
/** The `fingerprint` command (cmd/merkely/fingerprint.go): argument validation before
    the run, and the run writing the artifact's fingerprint. */
module FingerprintCommand {
  import opened Wrappers

  /** The two ways the argument check rejects a command line. */
  datatype ArgsError = TooManyArguments | ArtifactRequired

  function Message(e: ArgsError): string
  {
    match e
    case TooManyArguments => "only one argument (docker image name or file/dir path) is allowed"
    case ArtifactRequired => "docker image name or file/dir path is required"
  }

  /** The pre-run check. It accepts exactly one non-empty argument. The count is checked
      first, so any command line with two or more arguments, even empty ones, is
      rejected as too many; no argument, or a single empty one, is rejected as missing. */
  function ValidateArgs(args: seq<string>): (r: Option<ArgsError>)
    ensures r == None <==> |args| == 1 && args[0] != ""
    ensures r == Some(TooManyArguments) <==> |args| >= 2
    ensures r == Some(ArtifactRequired) <==> |args| == 0 || (|args| == 1 && args[0] == "")
  {
    if |args| > 1 then Some(TooManyArguments)
    else if |args| == 0 || args[0] == "" then Some(ArtifactRequired)
    else None
  }

  /** What a command invocation leaves behind: the text written to its output stream and
      the error it returns. */
  datatype Effect = Effect(written: string, err: Option<string>)

  /** `run`: fingerprint the artifact named by the first argument (`digest` takes the
      artifact type and the name) and write the fingerprint as is, with no newline; on
      a fingerprinting error, write nothing and return the error. */
  function Run(artifactType: string, args: seq<string>, digest: (string, string) -> Result<string, string>)
    : (r: Effect)
    requires |args| > 0
    ensures r.err.None? <==> digest(artifactType, args[0]).Success?
    ensures r.err.None? ==> r.written == digest(artifactType, args[0]).value
    ensures r.err.Some? ==> r.written == "" && r.err == Some(digest(artifactType, args[0]).error)
  {
    match digest(artifactType, args[0])
    case Success(fingerprint) => Effect(fingerprint, None)
    case Failure(e) => Effect("", Some(e))
  }

  /** The command as invoked: the pre-run check, then `run` when it passes. */
  function Execute(artifactType: string, args: seq<string>, digest: (string, string) -> Result<string, string>)
    : Effect
  {
    match ValidateArgs(args)
    case Some(e) => Effect("", Some(Message(e)))
    case None => Run(artifactType, args, digest)
  }

  /** The command writes something only for exactly one non-empty argument whose
      fingerprinting succeeded, and then writes exactly that fingerprint; every rejected
      command line writes nothing and reports the validation message. */
  lemma ExecuteWritesOnlyTheFingerprint(artifactType: string, args: seq<string>,
                                        digest: (string, string) -> Result<string, string>)
    ensures var e := Execute(artifactType, args, digest);
      && (e.err.None? <==> |args| == 1 && args[0] != "" && digest(artifactType, args[0]).Success?)
      && (e.err.None? ==> e.written == digest(artifactType, args[0]).value)
      && (|args| >= 2 ==> e == Effect("", Some(Message(TooManyArguments))))
      && ((|args| == 0 || (|args| == 1 && args[0] == "")) ==> e == Effect("", Some(Message(ArtifactRequired))))
  {
  }
}

=== FILE: flag_table.dfy ===
/** The flag-usage table (`CommandsInTable` and `defaultIsZeroValue`,
    cmd/merkely/printCommandsInTable.go): one line per visible flag, with every usage
    text starting in the same column.

    `UnquoteUsage` (which splits a flag's usage into a value name and the usage proper)
    and `wrap` (which lays the usage out from a start column) belong to the flag
    library and are parameters. A char stands for one byte, as Go's `len` counts. */
module FlagTable {
  import opened Strs

  /** The Go type class of a flag value, as `defaultIsZeroValue` tells them apart. */
  datatype ValueKind =
    | BoolKind      // any value with the boolean-flag marker
    | DurationKind
    | NumberKind    // the signed, unsigned, count and float values
    | StringKind
    | NetKind       // IP address, IP mask, IP network
    | ListKind      // int slice, string slice, string array
    | OtherKind

  /** A flag value: its type class, the name its `Type()` reports, and its current
      text as `String()` prints it. */
  datatype FlagValue = FlagValue(kind: ValueKind, typeName: string, current: string)

  datatype Flag = Flag(
    name: string,
    shorthand: string,
    shorthandDeprecated: string,
    hidden: bool,
    noOptDefVal: string,
    defValue: string,
    deprecated: string,
    value: FlagValue)

  /** The library collaborators: `unquote` gives a flag's value name and usage text;
      `wrap` lays usage text out from the given start column. */
  datatype Layout = Layout(unquote: Flag -> (string, string), wrap: (int, string) -> string)

  /** The marker put where the padding goes once the column is known. */
  const Marker: char := '\0'

  /** Go's `%q`, with escaping not modelled. */
  function Quote(s: string): string
  {
    "\"" + s + "\""
  }

  /** The texts a default of each known type class counts as zero. */
  function ZeroLiterals(kind: ValueKind): set<string>
  {
    match kind
    case BoolKind => {"false"}
    case DurationKind => {"0", "0s"}
    case NumberKind => {"0"}
    case StringKind => {""}
    case NetKind => {"<nil>"}
    case ListKind => {"[]"}
    case OtherKind => {"false", "<nil>", "", "0"}
  }

  /** `defaultIsZeroValue`: for a known type class, whether the default text is one of
      that class's zero literals; for any other value, whether its CURRENT text (not its
      default) is one of "false", "<nil>", "" or "0". */
  function DefaultIsZeroValue(f: Flag): (zero: bool)
    ensures f.value.kind != OtherKind ==> (zero <==> f.defValue in ZeroLiterals(f.value.kind))
    ensures f.value.kind == OtherKind ==> (zero <==> f.value.current in ZeroLiterals(OtherKind))
  {
    match f.value.kind
    case BoolKind => f.defValue == "false"
    case DurationKind => f.defValue == "0" || f.defValue == "0s"
    case NumberKind => f.defValue == "0"
    case StringKind => f.defValue == ""
    case NetKind => f.defValue == "<nil>"
    case ListKind => f.defValue == "[]"
    case OtherKind =>
      match f.value.current
      case "false" => true
      case "<nil>" => true
      case "" => true
      case "0" => true
      case _ => false
  }

  /** The start of a line: `  -x, --name` for a shorthand that is set and not
      deprecated, `      --name` otherwise. */
  function Prefix(f: Flag): string
  {
    if f.shorthand != "" && f.shorthandDeprecated == "" then "  -" + f.shorthand + ", --" + f.name
    else "      --" + f.name
  }

  /** With a one-letter shorthand, or none, the name starts eight bytes in, whichever
      form the prefix takes, so the names of such flags line up. */
  lemma PrefixWidth(f: Flag)
    requires |f.shorthand| <= 1
    ensures |Prefix(f)| == 8 + |f.name| && Prefix(f)[8..] == f.name
  {
    if f.shorthand != "" && f.shorthandDeprecated == "" {
      assert Prefix(f) == ("  -" + f.shorthand + ", --") + f.name;
    } else {
      assert Prefix(f) == "      --" + f.name;
    }
  }

  /** The optional-value note: `[="v"]` for a string flag, `[=v]` otherwise, omitted when
      there is no optional value, for a bool flag whose optional value is "true" and for
      a count flag whose optional value is "+1". */
  function OptionalValueNote(f: Flag): (note: string)
    ensures note == "" <==>
      || f.noOptDefVal == ""
      || (f.value.typeName == "bool" && f.noOptDefVal == "true")
      || (f.value.typeName == "count" && f.noOptDefVal == "+1")
    ensures note != "" && f.value.typeName == "string" ==> note == "[=" + Quote(f.noOptDefVal) + "]"
    ensures note != "" && f.value.typeName != "string" ==> note == "[=" + f.noOptDefVal + "]"
  {
    if f.noOptDefVal == "" then ""
    else match f.value.typeName
      case "string" => "[=\"" + f.noOptDefVal + "\"]"
      case "bool" => if f.noOptDefVal != "true" then "[=" + f.noOptDefVal + "]" else ""
      case "count" => if f.noOptDefVal != "+1" then "[=" + f.noOptDefVal + "]" else ""
      case _ => "[=" + f.noOptDefVal + "]"
  }

  /** The default note: present only when the default is not the zero value, quoted for
      a string flag. */
  function DefaultNote(f: Flag): (note: string)
    ensures note == "" <==> DefaultIsZeroValue(f)
    ensures note != "" && f.value.typeName == "string" ==> note == " (default " + Quote(f.defValue) + ")"
    ensures note != "" && f.value.typeName != "string" ==> note == " (default " + f.defValue + ")"
  {
    if DefaultIsZeroValue(f) then ""
    else if f.value.typeName == "string" then " (default " + Quote(f.defValue) + ")"
    else " (default " + f.defValue + ")"
  }

  /** The deprecation note, present exactly when the deprecation text is non-empty. */
  function DeprecationNote(f: Flag): (note: string)
    ensures note != "" <==> f.deprecated != ""
    ensures note != "" ==> note == " (DEPRECATED: " + f.deprecated + ")"
  {
    if |f.deprecated| != 0 then " (DEPRECATED: " + f.deprecated + ")" else ""
  }

  /** A line before alignment: the head, which ends in the marker, and the tail. The
      source keeps their concatenation and finds the split again with `strings.Index`. */
  datatype RawLine = RawLine(head: string, tail: string) {
    function Text(): string
    {
      head + tail
    }
  }

  /** The head ends in the marker. */
  predicate Marked(line: RawLine)
  {
    |line.head| > 0 && line.head[|line.head| - 1] == Marker
  }

  /** A flag's raw line: prefix, value name, optional-value note and marker, then the
      usage with its default and deprecation notes. */
  function LineOf(f: Flag, layout: Layout): (line: RawLine)
    ensures Marked(line)
  {
    var varname := layout.unquote(f).0;
    var usage := layout.unquote(f).1;
    RawLine(Prefix(f) + (if varname != "" then " " + varname else "") + OptionalValueNote(f) + [Marker],
            usage + DefaultNote(f) + DeprecationNote(f))
  }

  /** The first marker of a raw line lies within its head. */
  lemma MarkerInHead(line: RawLine)
    requires Marked(line)
    ensures 0 <= IndexOf(line.Text(), Marker) < |line.head|
  {
    assert line.Text()[|line.head| - 1] == Marker;
  }

  /** The flags that get a line: the non-hidden ones, in visiting order. */
  function Visible(flags: seq<Flag>): (vis: seq<Flag>)
    ensures |vis| <= |flags|
  {
    if |flags| == 0 then []
    else
      var last := flags[|flags| - 1];
      Visible(flags[..|flags| - 1]) + (if last.hidden then [] else [last])
  }

  /** Visiting one more flag adds its line at the end, unless it is hidden. */
  lemma VisibleSnoc(flags: seq<Flag>, f: Flag)
    ensures Visible(flags + [f]) == Visible(flags) + (if f.hidden then [] else [f])
  {
    assert (flags + [f])[..|flags|] == flags;
  }

  /** No hidden flag gets a line, and every visible flag is one of the visited flags. */
  lemma {:induction false} VisibleDropsHidden(flags: seq<Flag>)
    ensures forall i :: 0 <= i < |Visible(flags)| ==> !Visible(flags)[i].hidden
    ensures forall i :: 0 <= i < |Visible(flags)| ==> Visible(flags)[i] in flags
  {
    if |flags| > 0 {
      var prefix := flags[..|flags| - 1];
      VisibleDropsHidden(prefix);
      assert forall f :: f in prefix ==> f in flags;
    }
  }

  /** When no flag is hidden, every flag gets its line, in visiting order. */
  lemma {:induction false} VisibleKeepsShown(flags: seq<Flag>)
    requires forall i :: 0 <= i < |flags| ==> !flags[i].hidden
    ensures Visible(flags) == flags
  {
    if |flags| > 0 {
      var prefix := flags[..|flags| - 1];
      VisibleKeepsShown(prefix);
      assert prefix + [flags[|flags| - 1]] == flags;
    }
  }

  /** Every line a builder makes has its head ending in the marker. */
  ghost predicate MarksAll(build: Flag -> RawLine)
  {
    forall f :: Marked(build(f))
  }

  /** The line builder of the table: `LineOf` with the library collaborators fixed. */
  function Builder(layout: Layout): (build: Flag -> RawLine)
    ensures MarksAll(build)
    ensures forall f :: build(f) == LineOf(f, layout)
  {
    f => LineOf(f, layout)
  }

  /** The raw lines of the visible flags, in visiting order. */
  function Lines(flags: seq<Flag>, build: Flag -> RawLine): (lines: seq<RawLine>)
    requires MarksAll(build)
    ensures |lines| == |Visible(flags)|
    ensures forall i :: 0 <= i < |lines| ==> Marked(lines[i])
  {
    if |flags| == 0 then []
    else
      var last := flags[|flags| - 1];
      Lines(flags[..|flags| - 1], build) + (if last.hidden then [] else [build(last)])
  }

  /** Visiting one more flag adds its raw line at the end, unless it is hidden. */
  lemma LinesSnoc(flags: seq<Flag>, f: Flag, build: Flag -> RawLine)
    requires MarksAll(build)
    ensures Lines(flags + [f], build) == Lines(flags, build) + (if f.hidden then [] else [build(f)])
  {
    assert (flags + [f])[..|flags|] == flags;
  }

  /** Visiting flag `k` after the ones before it adds its line unless it is hidden. */
  lemma LinesStep(flags: seq<Flag>, k: nat, build: Flag -> RawLine)
    requires MarksAll(build)
    requires k < |flags|
    ensures Lines(flags[..k + 1], build) == Lines(flags[..k], build) + (if flags[k].hidden then [] else [build(flags[k])])
  {
    assert flags[..k + 1] == flags[..k] + [flags[k]];
    LinesSnoc(flags[..k], flags[k], build);
  }

  /** Line `i` is that of the `i`-th visible flag. */
  lemma {:induction false} LinesOfVisible(flags: seq<Flag>, build: Flag -> RawLine, i: nat)
    requires MarksAll(build)
    requires i < |Visible(flags)|
    ensures Lines(flags, build)[i] == build(Visible(flags)[i])
  {
    var prefix := flags[..|flags| - 1];
    if i < |Visible(prefix)| {
      LinesOfVisible(prefix, build, i);
    }
  }

  /** The largest of some lengths, 0 when there are none. */
  function MaxOf(ns: seq<nat>): nat
  {
    if |ns| == 0 then 0
    else
      var rest := MaxOf(ns[..|ns| - 1]);
      if ns[|ns| - 1] > rest then ns[|ns| - 1] else rest
  }

  /** No length exceeds the largest. */
  lemma {:induction false} MaxOfBound(ns: seq<nat>, i: nat)
    requires i < |ns|
    ensures ns[i] <= MaxOf(ns)
  {
    var prefix := ns[..|ns| - 1];
    if i < |prefix| {
      MaxOfBound(prefix, i);
      assert prefix[i] == ns[i];
    }
  }

  /** The largest of a non-empty list is one of its lengths. */
  lemma {:induction false} MaxOfAttained(ns: seq<nat>)
    requires |ns| > 0
    ensures exists i :: 0 <= i < |ns| && ns[i] == MaxOf(ns)
  {
    var n := |ns| - 1;
    var prefix := ns[..n];
    if n > 0 && ns[n] <= MaxOf(prefix) {
      MaxOfAttained(prefix);
      var i :| 0 <= i < |prefix| && prefix[i] == MaxOf(prefix);
      assert ns[i] == prefix[i];
    } else {
      assert ns[n] == MaxOf(ns);
    }
  }

  /** The head lengths of the lines, in order. */
  function HeadLens(lines: seq<RawLine>): seq<nat>
  {
    seq(|lines|, i requires 0 <= i < |lines| => |lines[i].head|)
  }

  /** The longest head, 0 when there is none: `maxlen` of the source. */
  function MaxHeadLen(lines: seq<RawLine>): nat
  {
    MaxOf(HeadLens(lines))
  }

  /** No head is longer than the longest. */
  lemma MaxHeadLenBound(lines: seq<RawLine>, i: nat)
    requires i < |lines|
    ensures |lines[i].head| <= MaxHeadLen(lines)
  {
    MaxOfBound(HeadLens(lines), i);
  }

  /** Over some lines, the longest head is the length of one of their heads. */
  lemma MaxHeadLenAttained(lines: seq<RawLine>)
    requires |lines| > 0
    ensures exists i :: 0 <= i < |lines| && |lines[i].head| == MaxHeadLen(lines)
  {
    MaxOfAttained(HeadLens(lines));
    var i :| 0 <= i < |lines| && HeadLens(lines)[i] == MaxHeadLen(lines);
  }

  /** A line whose head is the longest, and holds no marker before its last byte, gets a
      padding of exactly one space: its marker sits at `maxlen - 1`. A head with an earlier
      marker is cut there and padded further. */
  lemma LongestHeadPadsOnce(lines: seq<RawLine>, i: nat)
    requires i < |lines| && Marked(lines[i])
    requires |lines[i].head| == MaxHeadLen(lines)
    requires Free(lines[i].head[..|lines[i].head| - 1], Marker)
    ensures MaxHeadLen(lines) - IndexOf(lines[i].Text(), Marker) == 1
  {
    var head := lines[i].head;
    var raw := lines[i].Text();
    forall j | 0 <= j < |head| - 1
      ensures raw[j] != Marker
    {
      assert raw[j] == head[..|head| - 1][j];
    }
    IndexOfIsFirst(raw, Marker, |head| - 1);
  }

  /** One more line raises the longest head to that line's head if it is longer. */
  lemma MaxHeadLenSnoc(lines: seq<RawLine>, line: RawLine)
    ensures MaxHeadLen(lines + [line]) == if |line.head| > MaxHeadLen(lines) then |line.head| else MaxHeadLen(lines)
  {
    var ns := HeadLens(lines + [line]);
    assert ns[..|lines|] == HeadLens(lines);
  }

  /** One output line: the raw line up to its first marker, a space, `maxlen - sidx`
      spaces, a space, then the wrapped rest from column `maxlen + 2`, and a newline.
      The source panics on a negative padding, so the marker may sit no later than
      `maxlen`. */
  function EmitLine(raw: string, maxlen: nat, wrap: (int, string) -> string): (line: string)
    requires 0 <= IndexOf(raw, Marker) <= maxlen
    ensures var sidx := IndexOf(raw, Marker);
      && |line| >= maxlen + 2
      && line[..sidx] == raw[..sidx]
      && (forall j :: sidx <= j < maxlen + 2 ==> line[j] == ' ')
      && line[maxlen + 2..] == wrap(maxlen + 2, raw[sidx + 1..]) + "\n"
  {
    var sidx := IndexOf(raw, Marker);
    var line := raw[..sidx] + " " + Spaces(maxlen - sidx) + " " + wrap(maxlen + 2, raw[sidx + 1..]) + "\n";
    assert line[maxlen + 2..] == wrap(maxlen + 2, raw[sidx + 1..]) + "\n";
    line
  }

  /** Every marked line's marker comes before the longest head ends, so its padding
      is at least one space. */
  lemma PaddingIsPositive(lines: seq<RawLine>, i: nat)
    requires i < |lines| && Marked(lines[i])
    ensures 0 <= IndexOf(lines[i].Text(), Marker) && IndexOf(lines[i].Text(), Marker) + 1 <= MaxHeadLen(lines)
  {
    MarkerInHead(lines[i]);
    MaxHeadLenBound(lines, i);
  }

  /** The aligned lines, padded to the longest head. */
  function Align(lines: seq<RawLine>, wrap: (int, string) -> string): (rows: seq<string>)
    requires forall i :: 0 <= i < |lines| ==> Marked(lines[i])
    ensures |rows| == |lines|
  {
    var maxlen := MaxHeadLen(lines);
    seq(|lines|, i requires 0 <= i < |lines| =>
      PaddingIsPositive(lines, i);
      EmitLine(lines[i].Text(), maxlen, wrap))
  }

  /** The table's lines: one per visible flag, in visiting order. */
  function Rows(flags: seq<Flag>, layout: Layout): (rows: seq<string>)
    ensures |rows| == |Visible(flags)|
  {
    Align(Lines(flags, Builder(layout)), layout.wrap)
  }

  /** The first pass of `CommandsInTable`: visit the flags, skip the hidden ones, keep
      each other flag's raw line and the longest head so far. */
  method CollectLines(flags: seq<Flag>, build: Flag -> RawLine) returns (lines: seq<RawLine>, maxlen: nat)
    requires MarksAll(build)
    ensures lines == Lines(flags, build)
    ensures maxlen == MaxHeadLen(lines)
  {
    lines := [];
    maxlen := 0;
    for k := 0 to |flags|
      invariant lines == Lines(flags[..k], build)
      invariant maxlen == MaxHeadLen(lines)
    {
      var f := flags[k];
      LinesStep(flags, k, build);
      if !f.hidden {
        var line := build(f);
        MaxHeadLenSnoc(lines, line);
        if |line.head| > maxlen {
          maxlen := |line.head|;
        }
        lines := lines + [line];
      }
    }
    assert flags[..|flags|] == flags;
  }

  /** The second pass of `CommandsInTable`: write each line, padded to the longest head. */
  method WriteLines(lines: seq<RawLine>, maxlen: nat, wrap: (int, string) -> string) returns (out: string)
    requires forall i :: 0 <= i < |lines| ==> Marked(lines[i])
    requires maxlen == MaxHeadLen(lines)
    ensures out == Concat(Align(lines, wrap))
  {
    var rows := Align(lines, wrap);
    out := "";
    for k := 0 to |lines|
      invariant out == Concat(rows[..k])
    {
      PaddingIsPositive(lines, k);
      assert rows[..k + 1][..k] == rows[..k];
      out := out + EmitLine(lines[k].Text(), maxlen, wrap);
    }
    assert rows[..|lines|] == rows;
  }

  /** `CommandsInTable`: the buffer ends up holding the table's lines, in order. */
  method CommandsInTable(flags: seq<Flag>, layout: Layout) returns (out: string)
    ensures out == Concat(Rows(flags, layout))
  {
    var lines, maxlen := CollectLines(flags, Builder(layout));
    out := WriteLines(lines, maxlen, layout.wrap);
  }

  /** The alignment: in every line, column `maxlen + 2` (maxlen the longest head) is
      where the text after the first marker starts, preceded by at least two spaces.
      When the head holds no marker but its last byte, that text is the tail, and the
      line starts with the head without its marker. */
  lemma {:induction false} UsageColumn(lines: seq<RawLine>, wrap: (int, string) -> string, i: nat)
    requires forall k :: 0 <= k < |lines| ==> Marked(lines[k])
    requires i < |lines|
    ensures var maxlen := MaxHeadLen(lines);
      var row := Align(lines, wrap)[i];
      var head := lines[i].head;
      var sidx := IndexOf(lines[i].Text(), Marker);
      && |row| >= maxlen + 2
      && row[maxlen] == ' ' && row[maxlen + 1] == ' '
      && row[maxlen + 2..] == wrap(maxlen + 2, lines[i].Text()[sidx + 1..]) + "\n"
      && (Free(head[..|head| - 1], Marker) ==>
            && row[..|head| - 1] == head[..|head| - 1]
            && row[maxlen + 2..] == wrap(maxlen + 2, lines[i].tail) + "\n")
  {
    var line := lines[i];
    var head := line.head;
    var raw := line.Text();
    PaddingIsPositive(lines, i);
    if Free(head[..|head| - 1], Marker) {
      forall j | 0 <= j < |head| - 1
        ensures raw[j] != Marker
      {
        assert raw[j] == head[..|head| - 1][j];
      }
      IndexOfIsFirst(raw, Marker, |head| - 1);
      assert raw[|head|..] == line.tail;
      assert raw[..|head| - 1] == head[..|head| - 1];
    }
  }

  /** No emitted row keeps the marker: when the head holds no marker but its last byte,
      the row has a space where that marker stood, as Fprintln separates its operands. */
  lemma MarkerBecomesSpace(lines: seq<RawLine>, wrap: (int, string) -> string, i: nat)
    requires forall k :: 0 <= k < |lines| ==> Marked(lines[k])
    requires i < |lines|
    requires Marked(lines[i]) && Free(lines[i].head[..|lines[i].head| - 1], Marker)
    ensures Align(lines, wrap)[i][|lines[i].head| - 1] == ' '
  {
    var head := lines[i].head;
    var raw := lines[i].Text();
    PaddingIsPositive(lines, i);
    forall j | 0 <= j < |head| - 1
      ensures raw[j] != Marker
    {
      assert raw[j] == head[..|head| - 1][j];
    }
    IndexOfIsFirst(raw, Marker, |head| - 1);
  }

}

=== FILE: kosli_approval.dfy ===
/** `approvalReportOptions.run` of cmd/kosli/approvalReport.go. It differs from the
    merkely command in where the commits come from: a lister returning rich commits,
    whose SHA-1s are appended to the payload's commit list. */
module KosliApprovalReport {
  import opened Wrappers
  import opened Reporting
  import opened Approvals

  /** A commit as the rich lister reports it; only its SHA-1 reaches the payload. */
  datatype RichCommit = RichCommit(sha1: string)

  datatype ApprovalReportOptions = ApprovalReportOptions(
    pipelineName: string,
    oldestSrcCommit: string,
    newestSrcCommit: string,
    srcRepoRoot: string,
    userDataFile: string,
    payload: ApprovalPayload)

  /** The collaborators `run` calls: fingerprinting, user-data loading, and the rich
      commit lister (repository root, oldest, newest). */
  datatype Collaborators = Collaborators(
    digest: string -> Result<string, string>,
    loadUserData: string -> Result<string, string>,
    listCommits: (string, string, string) -> Result<seq<RichCommit>, string>)

  /** The append loop: the previous list followed by each commit's SHA-1, in order. */
  method AppendSha1s(list: seq<string>, commits: seq<RichCommit>) returns (r: seq<string>)
    ensures |r| == |list| + |commits|
    ensures r[..|list|] == list
    ensures forall i :: 0 <= i < |commits| ==> r[|list| + i] == commits[i].sha1
  {
    r := list;
    for k := 0 to |commits|
      invariant |r| == |list| + k
      invariant r[..|list|] == list
      invariant forall i :: 0 <= i < k ==> r[|list| + i] == commits[i].sha1
    {
      r := r + [commits[k].sha1];
    }
  }

  /** `run`: fingerprint (only when none was supplied), choose the reviews, load the user
      data, list the commits, append their SHA-1s, then send by POST. Any failure
      returns before the send, the earliest failing step deciding the error. */
  method Run(o: ApprovalReportOptions, args: seq<string>, request: bool, config: Config, env: Collaborators)
    returns (out: Outcome<ApprovalPayload, ApprovalError<string>>)
    requires o.payload.artifactSha256 != "" || |args| > 0
    ensures var sha := Fingerprint(o.payload.artifactSha256, args, env.digest);
      var userData := env.loadUserData(o.userDataFile);
      var listed := env.listCommits(o.srcRepoRoot, o.oldestSrcCommit, o.newestSrcCommit);
      && (out.Sent? <==> sha.Success? && userData.Success? && listed.Success?)
      && (sha.Failure? ==> out == Aborted(FingerprintFailed(sha.error)))
      && (sha.Success? && userData.Failure? ==> out == Aborted(UserDataFailed(userData.error)))
      && (sha.Success? && userData.Success? && listed.Failure?
          ==> out == Aborted(CommitsFailed(listed.error)))
      && (out.Sent? ==>
            var sent := out.request.payload;
            && out.request.verb == Post
            && out.request.url == ApprovalsUrl(config, o.pipelineName)
            && out.request.config == config
            && sent.artifactSha256 == sha.value
            && sent.description == o.payload.description
            && sent.reviews == Reviews(request, o.payload.description)
            && sent.userData == userData.value
            && |sent.commitList| == |o.payload.commitList| + |listed.value|
            && sent.commitList[..|o.payload.commitList|] == o.payload.commitList
            && (forall i :: 0 <= i < |listed.value| ==>
                  sent.commitList[|o.payload.commitList| + i] == listed.value[i].sha1))
  {
    var payload := o.payload;
    if payload.artifactSha256 == "" {
      var sha := env.digest(args[0]);
      if sha.Failure? {
        return Aborted(FingerprintFailed(sha.error));
      }
      payload := payload.(artifactSha256 := sha.value);
    }
    var url := ApprovalsUrl(config, o.pipelineName);
    payload := payload.(reviews := Reviews(request, payload.description));
    var userData := env.loadUserData(o.userDataFile);
    if userData.Failure? {
      return Aborted(UserDataFailed(userData.error));
    }
    payload := payload.(userData := userData.value);
    var listed := env.listCommits(o.srcRepoRoot, o.oldestSrcCommit, o.newestSrcCommit);
    if listed.Failure? {
      return Aborted(CommitsFailed(listed.error));
    }
    var commitList := AppendSha1s(payload.commitList, listed.value);
    payload := payload.(commitList := commitList);
    out := Sent(Request(Post, url, payload, config));
  }
}

=== FILE: merkely_approval.dfy ===
/** `approvalReportOptions.run` of cmd/merkely/approvalReport.go: assemble an approval
    payload and hand it to the sender, or stop at the first error. */
module MerkelyApprovalReport {
  import opened Wrappers
  import opened Reporting
  import opened Approvals
  import opened CommitRange

  /** The command's flags, with the payload fields the flags fill in. */
  datatype ApprovalReportOptions = ApprovalReportOptions(
    pipelineName: string,
    oldestSrcCommit: string,
    newestSrcCommit: string,
    srcRepoRoot: string,
    userDataFile: string,
    payload: ApprovalPayload)

  /** The collaborators `run` calls: fingerprinting of the named artifact, loading the
      user-data file, and opening the repository at a directory. */
  datatype Collaborators = Collaborators(
    digest: string -> Result<string, string>,
    loadUserData: string -> Result<string, string>,
    open: string -> Option<Repository>)

  /** `run`: fingerprint (only when none was supplied), choose the reviews, load the user
      data, list the commits, then send by POST. Any failure returns before the send,
      the earliest failing step deciding the error; on success the payload carries the
      supplied or computed fingerprint, the description, the listed commits in order,
      the reviews `request` selects and the loaded user data. */
  method Run(o: ApprovalReportOptions, args: seq<string>, request: bool, config: Config, env: Collaborators)
    returns (out: Outcome<ApprovalPayload, ApprovalError<RangeError>>)
    requires o.payload.artifactSha256 != "" || |args| > 0
    ensures var sha := Fingerprint(o.payload.artifactSha256, args, env.digest);
      var userData := env.loadUserData(o.userDataFile);
      var listing := RangeBetween(env.open, o.srcRepoRoot, o.oldestSrcCommit, o.newestSrcCommit);
      && (out.Sent? <==> sha.Success? && userData.Success? && listing.err.None?)
      && (sha.Failure? ==> out == Aborted(FingerprintFailed(sha.error)))
      && (sha.Success? && userData.Failure? ==> out == Aborted(UserDataFailed(userData.error)))
      && (sha.Success? && userData.Success? && listing.err.Some?
          ==> out == Aborted(CommitsFailed(listing.err.value)))
      && (out.Sent? ==> out.request == Request(
            Post,
            ApprovalsUrl(config, o.pipelineName),
            ApprovalPayload(sha.value, o.payload.description, listing.commits,
                            Reviews(request, o.payload.description), userData.value),
            config))
  {
    var payload := o.payload;
    if payload.artifactSha256 == "" {
      var sha := env.digest(args[0]);
      if sha.Failure? {
        return Aborted(FingerprintFailed(sha.error));
      }
      payload := payload.(artifactSha256 := sha.value);
    }
    var url := ApprovalsUrl(config, o.pipelineName);
    payload := payload.(reviews := Reviews(request, payload.description));
    var userData := env.loadUserData(o.userDataFile);
    if userData.Failure? {
      return Aborted(UserDataFailed(userData.error));
    }
    payload := payload.(userData := userData.value);
    var commits, err := ListCommitsBetween(env.open, o.srcRepoRoot, o.oldestSrcCommit, o.newestSrcCommit);
    if err.Some? {
      return Aborted(CommitsFailed(err.value));
    }
    payload := payload.(commitList := commits);
    out := Sent(Request(Post, url, payload, config));
  }
}

=== FILE: pr_evidence.dfy ===
/** GitHub pull-request evidence (cmd/kosli/artifactEvidencePRGithub.go): find the pull
    requests containing a commit, record each with its approvers, and report whether
    the artifact is compliant. The GitHub client is replaced by two oracles. */
module GithubPrEvidence {
  import opened Wrappers
  import opened Strs
  import opened Reporting

  /** A pull-request review: its state ("APPROVED", "COMMENTED", ...) and the reviewing user's login. */
  datatype Review = Review(state: string, login: string)

  datatype PullRequest = PullRequest(
    number: int,
    htmlUrl: string,
    mergeCommitSha: string,
    state: string)

  /** One entry of the evidence list. */
  datatype PrEvidence = PrEvidence(
    pullRequestMergeCommit: string,
    pullRequestUrl: string,
    pullRequestState: string,
    approvers: string)

  /** The two GitHub queries: pull requests holding a commit (owner, repository name,
      commit), and the reviews of one pull request (owner, repository name, number). */
  datatype GithubApi = GithubApi(
    pullRequestsWithCommit: (string, string, string) -> Result<seq<PullRequest>, string>,
    listReviews: (string, string, int) -> Result<seq<Review>, string>)

  datatype EvidenceOptions = EvidenceOptions(
    sha256: string,
    pipelineName: string,
    description: string,
    buildUrl: string,
    evidenceType: string,
    ghOwner: string,
    commit: string,
    repository: string,
    assertFlag: bool)

  /** The evidence contents: exactly these four entries. */
  datatype Contents = Contents(
    isCompliant: bool,
    url: string,
    description: string,
    source: seq<PrEvidence>)

  datatype EvidencePayload = EvidencePayload(evidenceType: string, contents: Contents)

  /** The logins of the APPROVED reviews, in review order. */
  function ApprovedLogins(reviews: seq<Review>): seq<string>
  {
    if |reviews| == 0 then []
    else
      var rest := ApprovedLogins(reviews[..|reviews| - 1]);
      var last := reviews[|reviews| - 1];
      if last.state == "APPROVED" then rest + [last.login] else rest
  }

  /** Reviews contribute to the approvers independently of each other: the approved
      logins of a concatenation are those of each part in turn. */
  lemma {:induction false} ApprovedLoginsAppend(a: seq<Review>, b: seq<Review>)
    ensures ApprovedLogins(a + b) == ApprovedLogins(a) + ApprovedLogins(b)
    decreases |b|
  {
    if |b| > 0 {
      assert (a + b)[..|a + b| - 1] == a + b[..|b| - 1];
      ApprovedLoginsAppend(a, b[..|b| - 1]);
    } else {
      assert a + b == a;
    }
  }

  /** A review in any state other than APPROVED changes nothing, wherever it stands. */
  lemma OtherStatesIgnored(before: seq<Review>, r: Review, after: seq<Review>)
    requires r.state != "APPROVED"
    ensures ApprovedLogins(before + [r] + after) == ApprovedLogins(before + after)
  {
    ApprovedLoginsAppend(before + [r], after);
    ApprovedLoginsAppend(before, [r]);
    assert [r][..0] == [];
    ApprovedLoginsAppend(before, after);
  }

  /** `getPullRequestApprovers`: append each APPROVED login and a comma, then drop the
      final comma. The result is the approved logins joined by commas, in review order
      (so empty when none approved); a failed review lookup gives an empty string and
      the error. */
  method GetPullRequestApprovers(reviews: Result<seq<Review>, string>) returns (approvers: string, err: Option<string>)
    ensures reviews.Failure? ==> approvers == "" && err == Some(reviews.error)
    ensures reviews.Success? ==> err == None && approvers == Join(ApprovedLogins(reviews.value), ",")
  {
    approvers := "";
    if reviews.Failure? {
      return approvers, Some(reviews.error);
    }
    var rs := reviews.value;
    for k := 0 to |rs|
      invariant ApprovedLogins(rs[..k]) == [] ==> approvers == ""
      invariant ApprovedLogins(rs[..k]) != [] ==> approvers == Join(ApprovedLogins(rs[..k]), ",") + ","
    {
      assert rs[..k + 1][..k] == rs[..k];
      if rs[k].state == "APPROVED" {
        if ApprovedLogins(rs[..k]) != [] {
          JoinSnoc(ApprovedLogins(rs[..k]), rs[k].login, ",");
        }
        approvers := approvers + rs[k].login + ",";
      }
    }
    assert rs[..|rs|] == rs;
    approvers := TrimSuffix(approvers, ",");
    err := None;
  }

  /** When some review is APPROVED and no approved login holds a comma, the approvers
      string splits back into exactly the approved logins, in order. (With none approved
      the string is "", and splitting "" gives one empty piece, not none.) */
  lemma ApproversSplitBack(reviews: seq<Review>)
    requires ApprovedLogins(reviews) != []
    requires forall i :: 0 <= i < |ApprovedLogins(reviews)| ==> Free(ApprovedLogins(reviews)[i], ',')
    ensures Split(Join(ApprovedLogins(reviews), ","), ',') == ApprovedLogins(reviews)
  {
    SplitJoin(ApprovedLogins(reviews), ',');
  }

  /** The repository name from an `owner/name` string: its last `/`-separated piece,
      which is the whole string when it has no `/`. */
  function RepositoryName(repository: string): (name: string)
    ensures Free(name, '/')
    ensures |name| <= |repository| && repository[|repository| - |name|..] == name
    ensures |name| < |repository| ==> repository[|repository| - |name| - 1] == '/'
  {
    var parts := Split(repository, '/');
    SplitLast(repository, '/');
    parts[|parts| - 1]
  }

  /** A repository string without `/` is its own name. */
  lemma PlainRepositoryName(repository: string)
    requires Free(repository, '/')
    ensures RepositoryName(repository) == repository
  {
  }

  /** The approvers of one pull request, as the GitHub reviews give them. */
  function Approvers(api: GithubApi, owner: string, repo: string, pr: PullRequest): Result<string, string>
  {
    match api.listReviews(owner, repo, pr.number)
    case Success(rs) => Success(Join(ApprovedLogins(rs), ","))
    case Failure(e) => Failure(e)
  }

  /** The evidence entry of one pull request whose approvers are known. */
  function EvidenceOf(pr: PullRequest, approvers: string): PrEvidence
  {
    PrEvidence(pr.mergeCommitSha, pr.htmlUrl, pr.state, approvers)
  }

  /** Entries `0 .. n` of the evidence list are those of the first `n` pull requests. */
  ghost predicate EntriesMatch(evidence: seq<PrEvidence>, prs: seq<PullRequest>, api: GithubApi, owner: string, repo: string)
  {
    && |evidence| <= |prs|
    && forall i :: 0 <= i < |evidence| ==>
         Approvers(api, owner, repo, prs[i]).Success?
         && evidence[i] == EvidenceOf(prs[i], Approvers(api, owner, repo, prs[i]).value)
  }

  /** The message of the `assert` failure when no pull request holds the commit. */
  function NoPullRequestsMessage(commit: string): string
  {
    "no pull requests found for the given commit: " + commit
  }

  /** `getGithubPullRequests`: one evidence entry per pull request, in list order. A failed
      listing gives no entries; a failed review lookup stops at that pull request and
      returns the entries built so far. Compliance means at least one entry and no
      error; with no pull requests, `assert` turns the non-compliance into an error. */
  method GetGithubPullRequests(o: EvidenceOptions, api: GithubApi)
    returns (evidence: seq<PrEvidence>, isCompliant: bool, err: Option<string>)
    ensures var repo := RepositoryName(o.repository);
      var listed := api.pullRequestsWithCommit(o.ghOwner, repo, o.commit);
      && (isCompliant <==> err.None? && |evidence| > 0)
      && (listed.Failure? ==> evidence == [] && err == Some(listed.error))
      && (listed.Success? ==>
            var prs := listed.value;
            && EntriesMatch(evidence, prs, api, o.ghOwner, repo)
            && (err.None? <==> |evidence| == |prs| && (|prs| > 0 || !o.assertFlag))
            && (|evidence| < |prs| ==>
                  Approvers(api, o.ghOwner, repo, prs[|evidence|]).Failure?
                  && err == Some(Approvers(api, o.ghOwner, repo, prs[|evidence|]).error))
            && (|prs| == 0 && o.assertFlag ==> err == Some(NoPullRequestsMessage(o.commit))))
  {
    var owner := o.ghOwner;
    var repo := RepositoryName(o.repository);
    evidence := [];
    isCompliant := false;
    var listed := api.pullRequestsWithCommit(owner, repo, o.commit);
    if listed.Failure? {
      return evidence, isCompliant, Some(listed.error);
    }
    var prs := listed.value;
    for k := 0 to |prs|
      invariant |evidence| == k
      invariant EntriesMatch(evidence, prs, api, owner, repo)
    {
      var approvers, lookupErr := GetPullRequestApprovers(api.listReviews(owner, repo, prs[k].number));
      if lookupErr.Some? {
        return evidence, isCompliant, lookupErr;
      }
      evidence := evidence + [EvidenceOf(prs[k], approvers)];
    }
    if |evidence| > 0 {
      isCompliant := true;
    } else if o.assertFlag {
      return evidence, isCompliant, Some(NoPullRequestsMessage(o.commit));
    }
    err := None;
  }

  /** Where the evidence is put: `<host>/api/v1/projects/<owner>/<pipeline>/artifacts/<sha256>`. */
  function ArtifactUrl(config: Config, pipelineName: string, sha256: string): string
  {
    config.host + "/api/v1/projects/" + config.owner + "/" + pipelineName + "/artifacts/" + sha256
  }

  /** `run`: fingerprint (only when none was supplied), gather the pull-request evidence,
      then send by PUT contents holding exactly the compliance, the build URL, the
      description and the evidence list. It sends exactly when the fingerprint, the
      pull-request listing and every review lookup succeed and, under `assert`, some
      pull request was found; any failure returns before the send. */
  method Run(o: EvidenceOptions, args: seq<string>, config: Config, digest: string -> Result<string, string>, api: GithubApi)
    returns (out: Outcome<EvidencePayload, string>)
    requires o.sha256 != "" || |args| > 0
    ensures var sha := Fingerprint(o.sha256, args, digest);
      var repo := RepositoryName(o.repository);
      var listed := api.pullRequestsWithCommit(o.ghOwner, repo, o.commit);
      && (out.Sent? <==>
            && sha.Success?
            && listed.Success?
            && (forall i :: 0 <= i < |listed.value| ==> Approvers(api, o.ghOwner, repo, listed.value[i]).Success?)
            && (|listed.value| > 0 || !o.assertFlag))
      && (sha.Failure? ==> out == Aborted(sha.error))
      && (sha.Success? && listed.Failure? ==> out == Aborted(listed.error))
      && (sha.Success? && listed.Success? && |listed.value| == 0 && o.assertFlag
          ==> out == Aborted(NoPullRequestsMessage(o.commit)))
      && (out.Sent? ==>
            var contents := out.request.payload.contents;
            && out.request.verb == Put
            && out.request.url == ArtifactUrl(config, o.pipelineName, sha.value)
            && out.request.config == config
            && out.request.payload.evidenceType == o.evidenceType
            && contents.url == o.buildUrl
            && contents.description == o.description
            && |contents.source| == |listed.value|
            && EntriesMatch(contents.source, listed.value, api, o.ghOwner, repo)
            && (contents.isCompliant <==> |contents.source| > 0))
  {
    var sha256 := o.sha256;
    if sha256 == "" {
      var computed := digest(args[0]);
      if computed.Failure? {
        return Aborted(computed.error);
      }
      sha256 := computed.value;
    }
    var url := ArtifactUrl(config, o.pipelineName, sha256);
    var evidence, isCompliant, err := GetGithubPullRequests(o, api);
    if err.Some? {
      return Aborted(err.value);
    }
    var contents := Contents(isCompliant, o.buildUrl, o.description, evidence);
    out := Sent(Request(Put, url, EvidencePayload(o.evidenceType, contents), config));
  }
}

=== FILE: reporting.dfy ===
/** What every reporting command shares: the process-wide settings, the request it
    hands to the payload sender, and the artifact fingerprint it reports against. */
module Reporting {
  import opened Wrappers

  /** The global settings a command reads: service host, owner, token, retry bound, dry run. */
  datatype Config = Config(
    host: string,
    owner: string,
    apiToken: string,
    maxApiRetries: int,
    dryRun: bool)

  datatype HttpMethod = Post | Put

  /** One call of the payload sender: what would go over the wire, with the settings
      (token, retry bound, dry run) the sender is handed. Delivery itself is not modelled. */
  datatype Request<P> = Request(verb: HttpMethod, url: string, payload: P, config: Config)

  /** How a command's `run` ends: it either hands exactly one request to the sender,
      or returns an error before anything is sent. */
  datatype Outcome<P, E> = Aborted(error: E) | Sent(request: Request<P>)

  /** The artifact fingerprint a command reports against: the one supplied on the command
      line when there is one, otherwise the digest of the artifact named by the first
      argument. `digest` stands for the fingerprinting of files, directories and images.
      The source indexes the first argument unguarded, so a caller supplying no
      fingerprint must pass an artifact name. */
  function Fingerprint(supplied: string, args: seq<string>, digest: string -> Result<string, string>)
    : (r: Result<string, string>)
    requires supplied != "" || |args| > 0
    ensures supplied != "" ==> r == Success(supplied)
    ensures supplied == "" ==> r == digest(args[0])
  {
    if supplied == "" then digest(args[0]) else Success(supplied)
  }
}

=== FILE: strs.dfy ===
/** The few Go `strings` operations the modelled code relies on, over `seq<char>`
    where one char stands for one byte. */
module Strs {

  /** `s` holds no occurrence of `c`. */
  predicate Free(s: string, c: char)
  {
    forall j :: 0 <= j < |s| ==> s[j] != c
  }

  /** Go's `strings.Index(s, string(c))`: the first position of `c` in `s`, or -1. */
  function IndexOf(s: string, c: char): (r: int)
    ensures -1 <= r < |s|
    ensures 0 <= r ==> s[r] == c
    ensures forall j :: 0 <= j < |s| && (r < 0 || j < r) ==> s[j] != c
  {
    if |s| == 0 then -1
    else if s[0] == c then 0
    else
      var k := IndexOf(s[1..], c);
      if k < 0 then -1 else k + 1
  }

  /** The first occurrence is unique: any position holding `c` with no `c` before it is it. */
  lemma IndexOfIsFirst(s: string, c: char, k: nat)
    requires k < |s| && s[k] == c
    requires forall j :: 0 <= j < k ==> s[j] != c
    ensures IndexOf(s, c) == k
  {
  }

  /** Go's `strings.Join`. */
  function Join(parts: seq<string>, sep: string): string
  {
    if |parts| == 0 then ""
    else if |parts| == 1 then parts[0]
    else parts[0] + sep + Join(parts[1..], sep)
  }

  /** Putting a part in front of a non-empty list adds that part and the separator. */
  lemma JoinCons(x: string, parts: seq<string>, sep: string)
    requires |parts| > 0
    ensures Join([x] + parts, sep) == x + sep + Join(parts, sep)
  {
    assert ([x] + parts)[1..] == parts;
  }

  /** Appending one more part adds the separator and that part, and nothing else. */
  lemma {:induction false} JoinSnoc(parts: seq<string>, x: string, sep: string)
    requires |parts| > 0
    ensures Join(parts + [x], sep) == Join(parts, sep) + sep + x
  {
    if |parts| == 1 {
      assert parts + [x] == [parts[0], x];
      assert [parts[0], x][1..] == [x];
    } else {
      assert (parts + [x])[1..] == parts[1..] + [x];
      JoinSnoc(parts[1..], x, sep);
    }
  }

  /** Go's `strings.Split(s, string(c))`: the maximal pieces between occurrences of `c`.
      There is always at least one piece and none holds `c`. */
  function Split(s: string, c: char): (r: seq<string>)
    ensures |r| >= 1
    ensures forall i :: 0 <= i < |r| ==> Free(r[i], c)
    decreases |s|
  {
    var k := IndexOf(s, c);
    if k < 0 then [s]
    else
      var rest := Split(s[k + 1..], c);
      [s[..k]] + rest
  }

  /** A split past the first separator: the piece before it, then the split of the rest. */
  lemma SplitUnfold(s: string, c: char)
    requires IndexOf(s, c) >= 0
    ensures var k := IndexOf(s, c);
      Split(s, c) == [s[..k]] + Split(s[k + 1..], c)
  {
  }

  /** `last` ends `s`, and is either all of `s` or preceded by a `c`. */
  predicate EndsAfter(s: string, last: string, c: char)
  {
    && |last| <= |s| && s[|s| - |last|..] == last
    && (|last| < |s| ==> s[|s| - |last| - 1] == c)
  }

  /** What ends the text after a `c` ends the whole text too. */
  lemma EndsAfterShift(s: string, k: nat, last: string, c: char)
    requires k < |s| && s[k] == c
    requires EndsAfter(s[k + 1..], last, c)
    ensures EndsAfter(s, last, c)
  {
    var tail := s[k + 1..];
    assert tail[|tail| - |last|..] == s[|s| - |last|..];
  }

  /** The last piece of a split is the suffix of `s` after its final `c`, or all of
      `s` when it holds no `c`. */
  lemma {:induction false} SplitLast(s: string, c: char)
    ensures EndsAfter(s, Split(s, c)[|Split(s, c)| - 1], c)
    decreases |s|
  {
    var k := IndexOf(s, c);
    if k >= 0 {
      var tail := s[k + 1..];
      var rs, rt := Split(s, c), Split(tail, c);
      SplitUnfold(s, c);
      assert rs[|rs| - 1] == rt[|rt| - 1];
      SplitLast(tail, c);
      EndsAfterShift(s, k, rt[|rt| - 1], c);
    }
  }

  /** Joining the pieces of a split with the separator gives back the original string. */
  lemma {:induction false} JoinSplit(s: string, c: char)
    ensures Join(Split(s, c), [c]) == s
    decreases |s|
  {
    var k := IndexOf(s, c);
    if k >= 0 {
      var tail := s[k + 1..];
      var rest := Split(tail, c);
      JoinSplit(tail, c);
      JoinCons(s[..k], rest, [c]);
      assert s == s[..k] + [c] + tail;
    }
  }

  /** Splitting a join of separator-free pieces gives back the pieces. */
  lemma {:induction false} SplitJoin(parts: seq<string>, c: char)
    requires |parts| > 0
    requires forall i :: 0 <= i < |parts| ==> Free(parts[i], c)
    ensures Split(Join(parts, [c]), c) == parts
  {
    if |parts| > 1 {
      var p := parts[0];
      var rest := Join(parts[1..], [c]);
      var s := p + [c] + rest;
      assert Join(parts, [c]) == s;
      assert s[..|p|] == p;
      IndexOfIsFirst(s, c, |p|);
      assert s[|p| + 1..] == rest;
      SplitJoin(parts[1..], c);
      assert parts == [p] + parts[1..];
    }
  }

  /** Go's `strings.TrimSuffix`: drops one copy of `suffix` when `s` ends with it. */
  function TrimSuffix(s: string, suffix: string): (r: string)
    ensures |suffix| <= |s| && s[|s| - |suffix|..] == suffix ==> r + suffix == s
    ensures !(|suffix| <= |s| && s[|s| - |suffix|..] == suffix) ==> r == s
  {
    if |suffix| <= |s| && s[|s| - |suffix|..] == suffix then
      assert s == s[..|s| - |suffix|] + s[|s| - |suffix|..];
      s[..|s| - |suffix|]
    else s
  }

  /** Go's `strings.Repeat(" ", n)` for a count already known not to be negative. */
  function Spaces(n: nat): (r: string)
    ensures |r| == n
    ensures forall i :: 0 <= i < n ==> r[i] == ' '
  {
    seq(n, _ => ' ')
  }

  /** The bytes a sequence of writes leaves in a buffer, in order. */
  function Concat(lines: seq<string>): string
  {
    if |lines| == 0 then "" else Concat(lines[..|lines| - 1]) + lines[|lines| - 1]
  }
}

=== FILE: wrappers.dfy ===
/** Failure-carrying datatypes used to model Go's `(value, error)` returns. */
module Wrappers {

  /** A value that may be absent: a nil pointer, an unset error, a missing lookup. */
  datatype Option<+T> = None | Some(value: T)

  /** The outcome of a call into a collaborator that may fail with an error message. */
  datatype Result<+R, +E> = Success(value: R) | Failure(error: E)
}
